=== FILE: README.md ===
# IPFS file-sharing gateway — Dafny model

This project models the Flask gateway of the IPFS file-sharing app. The gateway sits between HTTP
clients and one local IPFS node. The model covers its two request handlers:

- `POST /upload` validates the multipart request and saves the file as `uploads/<filename>`.
  It sends the file to the node's `/add`, deletes the saved copy, and, when the node accepts,
  records `hash -> filename` in the in-memory `file_hash_map`.
- `GET /retrieve/<hash>` asks the node's `/cat` for the bytes. It resolves a download name
  from the map, falling back to `<hash>.unknown`. It guesses a media type, defaulting to
  `application/octet-stream`. It then writes the bytes to `uploads/<name>` and sends that
  file as an attachment.

The gateway's state is a `State` value. It holds the hash map and the files on disk, as a map
from path to contents. Each handler is a pure function from a state, a request and the node's
reply to a `Transition`. A transition holds the new state, the response, and the call made to
the node, if any. The node's replies are inputs: a status plus a hash for `/add`, and a status
plus bytes for `/cat`. An `/add` reply may lack its `Hash` field. `mimetypes.guess_type` is a function parameter. Paths are built with a
model of POSIX `os.path.join`, so an absolute file name replaces the folder, as it does in
Python.

Modules:

- `Wrappers` (wrappers.dfy): `Option` and a dictionary read that may miss.
- `Paths` (paths.dfy): `os.path.join` and where a file name lands relative to `uploads`.
- `Gateway` (gateway.dfy): the data model, both handlers, name and media-type resolution.
- `Traces` (traces.dfy): requests served one after another. This module holds last-write-wins
  against a reference definition, the round trip through any run, and what a run leaves in
  the map and on disk.

The gateway as written in `server/app.py`:

- It talks to one hard-coded node and has no failover.
- The map lives in process memory, not in a durable store.
- Any non-200 reply from `/add` becomes a 500. A 200 reply without a `Hash` field raises after
  the saved copy is removed, and Flask answers that with a 500 as well.
- Any non-200 reply from `/cat` becomes a 404. A node that cannot be reached makes the request
  call raise, and Flask answers 500; that path is not modelled.
- The saved upload is named after the client's file name, not a per-request unique token.
- The retrieval handler never deletes its copy; a later upload of the same file name removes it.

## Model

| member | source | states |
|---|---|---|
| Paths.Join | server/app.py:27 | The joined path ends with the file name. An absolute name is used verbatim. Otherwise the path starts with the folder, and a `/` is inserted between folder and name unless the folder is empty or already ends with `/`. With the inserted `/` the path is exactly folder, `/`, name; without it, exactly folder then name. |
| Paths.RelativeNameStaysInFolder | server/app.py:11-12 | A file name that is a single path component (non-empty, no `/`, not `.` or `..`) lands directly below `uploads/`, and the name can be read back from the path. |
| Paths.AbsoluteNameEscapesFolder | server/app.py:27 | An absolute client file name is used as the path itself, which is not textually below `uploads/`. |
| Paths.UploadPathInjective | server/app.py:27 | Distinct file names give distinct path strings. |
| Gateway.ResolveName | server/app.py:50 | The download name is the recorded name when the hash is in the map, and exactly `hash + ".unknown"` otherwise. |
| Gateway.MimeType | server/app.py:57-58 | The media type is never empty. It is the guessed type when that is a non-empty string. In every other case, including an empty guess, it is `application/octet-stream`. |
| Gateway.Upload | server/app.py:17-25 | No `file` part gives 400 "No file part". An empty file name gives 400 "No selected file". Both leave the state unchanged and make no node call, and 400 occurs exactly for those requests. Every other request continues as `Submit`. The status is always 200, 400 or 500, and no file is left behind or altered. |
| Gateway.Submit | server/app.py:27-42 | The validated file's bytes are exactly what is sent to `/add`. Whatever the node answers, `uploads/<filename>` is absent afterwards and no other path changes. On 200 with a hash, the response carries the hash and the submitted name. The map gains that hash and maps it to the name, overwriting any earlier entry, and no other key changes. Any other status gives 500 "IPFS upload failed". A 200 without a hash gives Flask's 500. In both of those cases the map is unchanged. |
| Gateway.Retrieve | server/app.py:44-62 | The map never changes, and `/cat` is called with the hash. The status is 200 exactly when the node answered 200; otherwise it is 404 and the state is unchanged. On 200 the attachment carries the node's bytes, the resolved name and its media type. The written copy `uploads/<name>` then holds those bytes and the handler does not delete it, and no other path changes. |
| Gateway.ResolvedNameNonEmpty | server/app.py:50 | When every recorded name is non-empty, the resolved download name is non-empty. |
| Gateway.FallbackNamesDistinct | server/app.py:50 | Two different unmapped hashes get different fallback names, so their copies do not overwrite each other. |
| Gateway.FallbackNameRecoversHash | server/app.py:50 | A fallback name is the hash followed by `.unknown`, so the hash can be read back from it. |
| Gateway.UploadPreservesWellFormed | server/app.py:24-38 | An upload keeps every recorded name non-empty, because it records only a name that passed the empty-name check. |
| Gateway.RetrievePreservesWellFormed | server/app.py:44-62 | A retrieval keeps every recorded name non-empty, because it records nothing. |
| Gateway.RetrieveIdempotent | server/app.py:47-60 | Repeating a retrieval with the same node reply gives the same transition again. |
| Traces.LastUploadedName | server/app.py:38 | Reference definition of last-write-wins. The result is None exactly when no accepted upload in the run recorded `h`. Otherwise it is the name of an accepted upload of `h` with no later accepted upload of `h`. |
| Traces.LastWriteWins | server/app.py:36-38 | After any run, the map's entry for `h` is the last accepted upload's name, or the initial entry when the run uploaded no `h`. |
| Traces.LastUploadedNameAt | server/app.py:38 | An accepted upload of `h` with no later accepted upload of `h` is the one the reference definition returns. |
| Traces.RoundTrip | server/app.py:38-60 | After an accepted upload of `fname` under `h`, and any later requests that upload nothing else under `h`, a successful retrieval of `h` downloads the node's bytes named `fname`. |
| Traces.KeysOfRun | server/app.py:15-38 | After any run, a hash is a key of the map exactly when it was a key before or some accepted upload in the run recorded it. Nothing is forgotten, and retrievals add nothing. |
| Traces.RetrievalsKeepNames | server/app.py:44-62 | A run made only of retrievals leaves the map unchanged. |
| Traces.RunPreservesWellFormed | server/app.py:24-38 | Every recorded name stays non-empty over any run. |
| Traces.UploadsLeaveNoFiles | server/app.py:27-34 | A run made only of uploads leaves no new file on disk and changes no file it does not delete. |
| Traces.FilesAfterRun | server/app.py:27-54 | Every file present after a run was present before it or was written by a successful retrieval. Upload copies never remain. |

## Left out

- Flask plumbing is left out because it holds no bookkeeping: routing, CORS, `send_file` streaming, `jsonify` and `app.run` (server/app.py:1-8, 64-65).
- The HTTP transport to the node (`requests.post`) is not modelled. Its replies are inputs to the handlers: a status plus a hash or bytes.
- The model does not cover exceptions raised by `file.save`, `open` or `requests.post`, including an unreachable node. The source does not handle them. On those paths it never reaches `os.remove`, so no cleanup is claimed there. The one exception that is modelled is the missing `Hash` field, which is raised after `os.remove`.
- Gateway.Retrieve: the download body is stated to be the bytes just written. This assumes that `send_file` and `open` resolve the relative path `uploads/<name>` against the same directory. Flask resolves it against the application's root path and `open` against the working directory, so the two must coincide.
- Gateway.Retrieve: the call is stated as `/cat` with the hash. This assumes the hash needs no URL encoding. The source pastes it into the query string unencoded, so a hash containing `&`, `#` or `+` reaches the node as different text.
- Gateway.Submit: the model treats every `file.save` as succeeding. For a name on which it raises in the source (a name such as `a/b` whose sub-directory is missing, `.`, `..`, or a name ending in `/`), the source answers 500 with no node call and the map unchanged. The model instead calls `/add` with the bytes and, on a 200 reply with a hash, records the name.
- The contents of the `mimetypes` table are not modelled. `guess_type` is an arbitrary function from file name to optional type.
- `request.files` is a multi-dict, but the model allows one part per field name. `request.files['file']` reads only the first part anyway.
- Gateway.Upload: "no other file changes" holds for paths as strings. Path normalisation is not modelled. A name containing `..` (such as `../app.py`) leaves the folder in the operating system, and the handler then overwrites and deletes that outside file, which the model keys as a different path.
- Gateway.Submit: its frame on the disk is about path strings too, for the same reason as Gateway.Upload.
- Gateway.Retrieve: its disk frame ("no other path changes") is about path strings as well. A recorded name containing `..`, such as `../app.py`, can be accepted by the upload handler. Retrieving its hash then makes the source open `uploads/../app.py` and overwrite `app.py` outside the folder. The model keeps the key `app.py` with its old bytes and adds the separate key `uploads/../app.py`.
- Paths.UploadPathInjective: distinct strings such as `x` and `./x` can name the same file, so injectivity is about path text, not about files.
- Concurrency between requests is not modelled. Requests are served one after another.
- Node selection and failover, a durable metadata store, a distinct metadata-write failure, per-request unique temporary names and deletion of the retrieved copy are not modelled. The source implements none of them.
- The browser client (gui/src/composables/useIpfs.ts, gui/src/composables/perfTest.ts, gui/src/main.ts) is not part of this model. It wraps Helia, libp2p and Web3.Storage, random data and timers.
- The command-line uploader (ipfs-python/upload.py) is not part of this model. It is a three-line wrapper over `ipfshttpclient`.

=== FILE: gateway.dfy ===
/** The Flask gateway between HTTP clients and a single IPFS node: the two request handlers
    as pure transitions over the gateway's state, with the node's replies given as inputs. */
module Gateway {
  import opened Wrappers
  import opened Paths

  newtype byte = x: int | 0 <= x < 256

  type Bytes = seq<byte>

  /** A content identifier as the IPFS node reports it; opaque to the gateway. */
  type Hash = string

  type Filename = string

  /** `mimetypes.guess_type(name)[0]`: the media type guessed from a file name, if any. */
  type MimeGuess = Filename -> Option<string>

  /** Everything the handlers read or change: the in-memory `file_hash_map` and the files
      on disk (path to contents; the keys are the files present). */
  datatype State = State(names: map<Hash, Filename>, disk: map<Path, Bytes>)

  /** One part of a multipart form: the client-supplied file name and the payload. */
  datatype FilePart = FilePart(filename: Filename, content: Bytes)

  /** The parts of an upload request, by form field name (`request.files`). */
  datatype UploadRequest = UploadRequest(parts: map<string, FilePart>)

  /** The node's answer to `/add`: its HTTP status and the `Hash` field of its JSON body
      (`None` when the body carries no such field). */
  datatype AddReply = AddReply(status: int, hash: Option<Hash>)

  /** The node's answer to `/cat`: its HTTP status and the body bytes. */
  datatype CatReply = CatReply(status: int, content: Bytes)

  /** The request a handler sent to the node. */
  datatype BackendCall = Add(payload: Bytes) | Cat(hash: Hash)

  /** What a handler answers the client with. */
  datatype Response =
    | ErrorJson(code: int, error: string)
    | Uploaded(hash: Hash, filename: Filename)
    | Attachment(body: Bytes, downloadName: Filename, mimeType: string)
      /** Flask's own answer when the handler raises an exception it does not catch. */
    | InternalError
  {
    /** The HTTP status line of the response. */
    function Status(): int {
      match this
      case ErrorJson(code, _) => code
      case InternalError => ServerError
      case _ => Ok
    }
  }

  /** The effect of one request: the new state, the response, and the call made to the node
      (`None` when the handler answered without contacting it). */
  datatype Transition = Transition(state: State, response: Response, call: Option<BackendCall>)

  const Ok: int := 200
  const BadRequest: int := 400
  const NotFound: int := 404
  const ServerError: int := 500

  /** The form field an upload must carry its file in. */
  const FileField: string := "file"

  const NoFilePart: string := "No file part"
  const NoSelectedFile: string := "No selected file"
  const UploadFailed: string := "IPFS upload failed"
  const RetrievalFailed: string := "File retrieval failed"

  /** Appended to a hash that has no recorded file name. */
  const FallbackSuffix: string := ".unknown"

  const DefaultMimeType: string := "application/octet-stream"

  /** An upload request that passes both validation checks of the handler. */
  predicate ValidUpload(req: UploadRequest) {
    FileField in req.parts && req.parts[FileField].filename != ""
  }

  /** A valid upload whose `/add` reply is a 200 carrying a hash: the only case that
      records a name. */
  predicate Records(req: UploadRequest, reply: AddReply) {
    ValidUpload(req) && reply.status == Ok && reply.hash.Some?
  }

  /** The file name recorded for `hash`, or `<hash>.unknown` when the map has none. */
  function ResolveName(names: map<Hash, Filename>, hash: Hash): (name: Filename)
    ensures hash in names ==> name == names[hash]
    ensures hash !in names ==> name == hash + FallbackSuffix
  {
    Lookup(names, hash).GetOr(hash + FallbackSuffix)
  }

  /** The media type sent with a download: the guessed one when it is a non-empty string
      (Python's `or` also rejects the empty string), otherwise the generic binary type. */
  function MimeType(name: Filename, guess: MimeGuess): (m: string)
    ensures m != ""
    ensures guess(name).Some? && guess(name).value != "" ==> m == guess(name).value
    ensures !(guess(name).Some? && guess(name).value != "") ==> m == DefaultMimeType
  {
    var guessed := guess(name);
    if guessed.Some? && guessed.value != "" then guessed.value else DefaultMimeType
  }

  /** `POST /upload`: reject a request without a `file` part or with an empty file name,
      otherwise hand the file to `Submit`. */
  function Upload(s: State, req: UploadRequest, reply: AddReply): (t: Transition)
    // Both validation failures answer 400 before any file or node is touched.
    ensures FileField !in req.parts ==> t == Transition(s, ErrorJson(BadRequest, NoFilePart), None)
    ensures FileField in req.parts && req.parts[FileField].filename == "" ==>
              t == Transition(s, ErrorJson(BadRequest, NoSelectedFile), None)
    ensures t.response.Status() == BadRequest <==> !ValidUpload(req)
    ensures t.response.Status() in {Ok, BadRequest, ServerError}
    // Whatever happens, no file is left behind or altered.
    ensures forall p :: p in t.state.disk ==> p in s.disk && t.state.disk[p] == s.disk[p]
    ensures ValidUpload(req) ==> t == Submit(s, req.parts[FileField], reply)
  {
    if FileField !in req.parts then
      Transition(s, ErrorJson(BadRequest, NoFilePart), None)
    else
      var file := req.parts[FileField];
      if file.filename == "" then
        Transition(s, ErrorJson(BadRequest, NoSelectedFile), None)
      else
        Submit(s, file, reply)
  }

  /** The rest of `POST /upload` for a validated file: save it under the client's file name,
      send it to the node's `/add`, delete the saved copy, and only then look at the reply;
      on success record `hash -> filename`. */
  function Submit(s: State, file: FilePart, reply: AddReply): (t: Transition)
    requires file.filename != ""
    // Exactly the uploaded bytes go to the node.
    ensures t.call == Some(Add(file.content))
    // Whatever the node answers, the saved copy is gone and no other path changed.
    ensures UploadPath(file.filename) !in t.state.disk
    ensures forall p :: p in t.state.disk ==> p in s.disk && t.state.disk[p] == s.disk[p]
    ensures forall p :: p in s.disk && p != UploadPath(file.filename) ==> p in t.state.disk
    // Success: the hash now names the uploaded file (last write wins), other keys unchanged.
    ensures reply.status == Ok && reply.hash.Some? ==>
              && t.response == Uploaded(reply.hash.value, file.filename)
              && t.state.names.Keys == s.names.Keys + {reply.hash.value}
              && t.state.names[reply.hash.value] == file.filename
              && forall h :: h in s.names && h != reply.hash.value ==> t.state.names[h] == s.names[h]
    // Any other node status: 500 with the handler's own message.
    ensures reply.status != Ok ==> t.response == ErrorJson(ServerError, UploadFailed)
    // A 200 without a hash: reading it raises after the copy is removed, and Flask answers 500.
    ensures reply.status == Ok && reply.hash.None? ==> t.response == InternalError
    // In every case but a recorded hash the map is untouched.
    ensures !(reply.status == Ok && reply.hash.Some?) ==> t.state.names == s.names
  {
    var path := UploadPath(file.filename);
    var saved := s.disk[path := file.content];   // file.save(filepath)
    var payload := saved[path];                  // open(filepath, 'rb') handed to /add
    var cleaned := saved - {path};               // os.remove(filepath), before the status check
    if reply.status == Ok then
      match reply.hash
      case Some(hash) =>
        Transition(State(s.names[hash := file.filename], cleaned),
                   Uploaded(hash, file.filename), Some(Add(payload)))
      case None =>                               // response.json()["Hash"] raises KeyError
        Transition(State(s.names, cleaned), InternalError, Some(Add(payload)))
    else
      Transition(State(s.names, cleaned), ErrorJson(ServerError, UploadFailed), Some(Add(payload)))
  }

  /** `GET /retrieve/<hash>`: fetch the bytes from the node's `/cat`; on success write them
      to the upload folder under the resolved name and send that file as an attachment. */
  function Retrieve(s: State, hash: Hash, reply: CatReply, guess: MimeGuess): (t: Transition)
    ensures t.state.names == s.names
    ensures t.call == Some(Cat(hash))
    ensures t.response.Status() in {Ok, NotFound}
    ensures t.response.Status() == Ok <==> reply.status == Ok
    // Failure at the node: 404 and nothing changes.
    ensures reply.status != Ok ==> t.state == s && t.response == ErrorJson(NotFound, RetrievalFailed)
    // Success: the download carries the node's bytes under the resolved name and type ...
    ensures reply.status == Ok ==>
              && t.response.Attachment?
              && t.response.body == reply.content
              && t.response.downloadName == ResolveName(s.names, hash)
              && t.response.mimeType == MimeType(ResolveName(s.names, hash), guess)
    // ... and the written copy stays in the folder; no other path changes.
    ensures reply.status == Ok ==>
              && UploadPath(ResolveName(s.names, hash)) in t.state.disk
              && t.state.disk[UploadPath(ResolveName(s.names, hash))] == reply.content
              && t.state.disk.Keys == s.disk.Keys + {UploadPath(ResolveName(s.names, hash))}
    ensures forall p :: p in s.disk && (reply.status == Ok ==> p != UploadPath(ResolveName(s.names, hash))) ==>
              p in t.state.disk && t.state.disk[p] == s.disk[p]
  {
    if reply.status == Ok then
      var name := ResolveName(s.names, hash);
      var path := UploadPath(name);
      var written := s.disk[path := reply.content];  // f.write(response.content)
      var body := written[path];                     // send_file(file_path, ...) reads it back
      Transition(State(s.names, written), Attachment(body, name, MimeType(name, guess)), Some(Cat(hash)))
    else
      Transition(s, ErrorJson(NotFound, RetrievalFailed), Some(Cat(hash)))
  }

  /** Every recorded file name is non-empty, as the upload handler only records names that
      passed its validation. */
  predicate WellFormed(s: State) {
    forall h :: h in s.names ==> s.names[h] != ""
  }

  /** Retrieval always answers with a usable, non-empty download name. */
  lemma ResolvedNameNonEmpty(s: State, hash: Hash)
    requires WellFormed(s)
    ensures ResolveName(s.names, hash) != ""
  {
  }

  /** Two hashes with no recorded name get distinct fallback names, so their written
      copies never overwrite each other. */
  lemma FallbackNamesDistinct(s: State, h1: Hash, h2: Hash)
    requires h1 !in s.names && h2 !in s.names && h1 != h2
    ensures ResolveName(s.names, h1) != ResolveName(s.names, h2)
  {
    var n1, n2 := h1 + FallbackSuffix, h2 + FallbackSuffix;
    assert n1[..|h1|] == h1 && n2[..|h2|] == h2;
  }

  /** A fallback name is the hash followed by `.unknown`, so the hash can be read back. */
  lemma FallbackNameRecoversHash(s: State, hash: Hash)
    requires hash !in s.names
    ensures var n := ResolveName(s.names, hash);
            |n| == |hash| + |FallbackSuffix| && n[..|hash|] == hash && n[|hash|..] == FallbackSuffix
  {
  }

  /** An upload records only a name that passed the empty-name check. */
  lemma UploadPreservesWellFormed(s: State, req: UploadRequest, add: AddReply)
    requires WellFormed(s)
    ensures WellFormed(Upload(s, req, add).state)
  {
  }

  /** A retrieval records nothing. */
  lemma RetrievePreservesWellFormed(s: State, hash: Hash, cat: CatReply, guess: MimeGuess)
    requires WellFormed(s)
    ensures WellFormed(Retrieve(s, hash, cat, guess).state)
  {
  }

  /** Retrieving the same hash twice with the same answer from the node leaves the same
      state as retrieving it once. */
  lemma RetrieveIdempotent(s: State, hash: Hash, reply: CatReply, guess: MimeGuess)
    ensures var once := Retrieve(s, hash, reply, guess);
            Retrieve(once.state, hash, reply, guess) == once
  {
  }
}

=== FILE: paths.dfy ===
/** POSIX path composition as the gateway uses it to place files in its upload folder. */
module Paths {

  type Path = string

  /** The folder, relative to the working directory, where both handlers write files. */
  const UploadFolder: string := "uploads"

  const Separator: char := '/'

  /** A path that starts at the file-system root. */
  predicate IsAbsolute(p: string) {
    |p| > 0 && p[0] == Separator
  }

  /** `os.path.join(dir, name)` on POSIX: an absolute `name` discards `dir`; otherwise a
      separator is inserted unless `dir` is empty or already ends with one. */
  function Join(dir: string, name: string): (p: Path)
    ensures |p| >= |name| && p[|p| - |name|..] == name
    ensures IsAbsolute(name) ==> p == name
    ensures !IsAbsolute(name) ==> |p| >= |dir| && p[..|dir|] == dir
    ensures !IsAbsolute(name) && dir != [] && dir[|dir| - 1] != Separator ==>
              |p| == |dir| + 1 + |name| && p[|dir|] == Separator
    ensures !IsAbsolute(name) && (dir == [] || dir[|dir| - 1] == Separator) ==> |p| == |dir| + |name|
  {
    if IsAbsolute(name) then name
    else if dir == [] || dir[|dir| - 1] == Separator then dir + name
    else dir + [Separator] + name
  }

  /** Where a file called `name` lands: `os.path.join(UPLOAD_FOLDER, name)`. */
  function UploadPath(name: string): Path {
    Join(UploadFolder, name)
  }

  /** The path lies textually below the upload folder (`uploads/...`). */
  predicate InFolder(p: Path) {
    |p| > |UploadFolder| && p[..|UploadFolder|] == UploadFolder && p[|UploadFolder|] == Separator
  }

  /** A name that is one path component: non-empty, no separator, and neither `.` nor `..`.
      Only such a name is guaranteed to denote an entry of the folder it is joined to. */
  predicate SingleComponent(name: string) {
    name != "" && name != "." && name != ".." && Separator !in name
  }

  /** A single-component file name is placed directly below the upload folder. */
  lemma RelativeNameStaysInFolder(name: string)
    requires SingleComponent(name)
    ensures InFolder(UploadPath(name))
    ensures UploadPath(name)[|UploadFolder| + 1..] == name
  {
  }

  /** An absolute file name is used verbatim, so the path is not textually below the upload folder. */
  lemma AbsoluteNameEscapesFolder(name: string)
    requires IsAbsolute(name)
    ensures !InFolder(UploadPath(name))
    ensures UploadPath(name) == name
  {
  }

  /** Distinct file names are stored at distinct paths, so the folder holds at most one
      file per name. */
  lemma UploadPathInjective(a: string, b: string)
    requires UploadPath(a) == UploadPath(b)
    ensures a == b
  {
  }
}

=== FILE: traces.dfy ===
/** Requests served one after another against the same gateway state, and what any such
    sequence leaves behind in the hash map and in the upload folder. */
module Traces {
  import opened Wrappers
  import opened Paths
  import opened Gateway

  /** One request together with the node's answer to it. */
  datatype Op =
    | UploadOp(req: UploadRequest, add: AddReply)
    | RetrieveOp(hash: Hash, cat: CatReply)

  /** Serve one request. */
  function Step(s: State, op: Op, guess: MimeGuess): Transition {
    match op
    case UploadOp(req, add) => Upload(s, req, add)
    case RetrieveOp(hash, cat) => Retrieve(s, hash, cat, guess)
  }

  /** The state after serving `ops` in order, starting from `s`. */
  function Run(s: State, ops: seq<Op>, guess: MimeGuess): State
    decreases |ops|
  {
    if ops == [] then s
    else Step(Run(s, ops[..|ops| - 1], guess), ops[|ops| - 1], guess).state
  }

  /** `op` is an upload that passed validation and that the node accepted. */
  predicate Accepted(op: Op) {
    op.UploadOp? && Records(op.req, op.add)
  }

  /** `op` is an accepted upload that the node filed under `h`. */
  predicate RecordsHash(op: Op, h: Hash) {
    Accepted(op) && op.add.hash.value == h
  }

  /** The file name carried by an upload request that passed validation. */
  function UploadedName(op: Op): Filename
    requires op.UploadOp? && ValidUpload(op.req)
  {
    op.req.parts[FileField].filename
  }

  /** Reference definition of last-write-wins: the name of the last upload in `ops` filed
      under `h`, if there is one. */
  function LastUploadedName(ops: seq<Op>, h: Hash): (r: Option<Filename>)
    ensures r.None? <==> forall i :: 0 <= i < |ops| ==> !RecordsHash(ops[i], h)
    ensures r.Some? ==> exists i :: 0 <= i < |ops| && RecordsHash(ops[i], h) && r.value == UploadedName(ops[i])
                                    && forall j :: i < j < |ops| ==> !RecordsHash(ops[j], h)
    decreases |ops|
  {
    if ops == [] then None
    else if RecordsHash(ops[|ops| - 1], h) then Some(UploadedName(ops[|ops| - 1]))
    else
      var init := ops[..|ops| - 1];
      assert forall i :: 0 <= i < |init| ==> init[i] == ops[i];
      LastUploadedName(init, h)
  }

  /** Last write wins over a whole run: after `ops`, the name recorded for `h` is the one
      of the last accepted upload of `h`, or the initial one if `ops` uploaded no `h`. */
  lemma {:induction false} LastWriteWins(s: State, ops: seq<Op>, guess: MimeGuess, h: Hash)
    ensures Lookup(Run(s, ops, guess).names, h)
              == if LastUploadedName(ops, h).Some? then LastUploadedName(ops, h) else Lookup(s.names, h)
    decreases |ops|
  {
    if ops != [] {
      LastWriteWins(s, ops[..|ops| - 1], guess, h);
    }
  }

  /** The uploads in `ops` that are accepted under `h` are exactly the ones the reference
      definition scans; the one at index `i` is the last when no later one records `h`. */
  lemma LastUploadedNameAt(ops: seq<Op>, h: Hash, i: nat)
    requires i < |ops| && RecordsHash(ops[i], h)
    requires forall j :: i < j < |ops| ==> !RecordsHash(ops[j], h)
    ensures LastUploadedName(ops, h) == Some(UploadedName(ops[i]))
  {
  }

  /** The round trip through any run: after an accepted upload of `fname` filed under `h`
      and any later requests that upload no other file under `h`, a successful retrieval
      of `h` downloads the node's bytes named `fname`. */
  lemma {:induction false} RoundTrip(s: State, ops: seq<Op>, guess: MimeGuess, i: nat, h: Hash, cat: CatReply)
    requires i < |ops| && RecordsHash(ops[i], h)
    requires forall j :: i < j < |ops| ==> !RecordsHash(ops[j], h)
    requires cat.status == Ok
    ensures var fname := UploadedName(ops[i]);
            Retrieve(Run(s, ops, guess), h, cat, guess).response
              == Attachment(cat.content, fname, MimeType(fname, guess))
  {
    LastUploadedNameAt(ops, h, i);
    LastWriteWins(s, ops, guess, h);
  }

  /** The map only ever gains keys, and exactly the hashes accepted uploads recorded:
      nothing is forgotten and retrievals add nothing. */
  lemma {:induction false} KeysOfRun(s: State, ops: seq<Op>, guess: MimeGuess)
    ensures forall h :: h in Run(s, ops, guess).names <==>
                          h in s.names || exists i :: 0 <= i < |ops| && RecordsHash(ops[i], h)
    decreases |ops|
  {
    if ops != [] {
      KeysOfRun(s, ops[..|ops| - 1], guess);
    }
  }

  /** A run of retrievals only never changes the map. */
  lemma {:induction false} RetrievalsKeepNames(s: State, ops: seq<Op>, guess: MimeGuess)
    requires forall i :: 0 <= i < |ops| ==> ops[i].RetrieveOp?
    ensures Run(s, ops, guess).names == s.names
    decreases |ops|
  {
    if ops != [] {
      RetrievalsKeepNames(s, ops[..|ops| - 1], guess);
    }
  }

  /** Every recorded name stays non-empty over any run. */
  lemma {:induction false} RunPreservesWellFormed(s: State, ops: seq<Op>, guess: MimeGuess)
    requires WellFormed(s)
    ensures WellFormed(Run(s, ops, guess))
    decreases |ops|
  {
    if ops != [] {
      var prev := Run(s, ops[..|ops| - 1], guess);
      RunPreservesWellFormed(s, ops[..|ops| - 1], guess);
      match ops[|ops| - 1]
      case UploadOp(req, add) => UploadPreservesWellFormed(prev, req, add);
      case RetrieveOp(hash, cat) => RetrievePreservesWellFormed(prev, hash, cat, guess);
    }
  }

  /** Uploads clean up after themselves: a run of uploads only leaves no new file in the
      folder and changes no file it does not delete. */
  lemma {:induction false} UploadsLeaveNoFiles(s: State, ops: seq<Op>, guess: MimeGuess)
    requires forall i :: 0 <= i < |ops| ==> ops[i].UploadOp?
    ensures forall p :: p in Run(s, ops, guess).disk ==> p in s.disk && Run(s, ops, guess).disk[p] == s.disk[p]
    decreases |ops|
  {
    if ops != [] {
      UploadsLeaveNoFiles(s, ops[..|ops| - 1], guess);
    }
  }

  /** The paths successful retrievals in `ops` wrote to, each under the name resolved
      against the map as it stood when that retrieval was served. */
  function WrittenByRetrievals(s: State, ops: seq<Op>, guess: MimeGuess): set<Path>
    decreases |ops|
  {
    if ops == [] then {}
    else
      var init := ops[..|ops| - 1];
      var last := ops[|ops| - 1];
      WrittenByRetrievals(s, init, guess)
        + if last.RetrieveOp? && last.cat.status == Ok
          then {UploadPath(ResolveName(Run(s, init, guess).names, last.hash))}
          else {}
  }

  /** Any file present after a run was there before it or was written by a successful
      retrieval: uploads never leave their temporary copies behind. */
  lemma {:induction false} FilesAfterRun(s: State, ops: seq<Op>, guess: MimeGuess)
    ensures Run(s, ops, guess).disk.Keys <= s.disk.Keys + WrittenByRetrievals(s, ops, guess)
    decreases |ops|
  {
    if ops != [] {
      FilesAfterRun(s, ops[..|ops| - 1], guess);
    }
  }
}

=== FILE: wrappers.dfy ===
/** Optional values, used for the answers of lookups that may miss. */
module Wrappers {

  datatype Option<+T> = None | Some(value: T) {

    /** The wrapped value, or `default` when there is none. */
    function GetOr(default: T): T
    {
      match this
      case Some(v) => v
      case None => default
    }
  }

  /** A dictionary read that may miss: `Some(m[k])` when `k` is a key of `m`. */
  function Lookup<K, V>(m: map<K, V>, k: K): Option<V>
  {
    if k in m then Some(m[k]) else None
  }
}
